=== FILE: README.md ===
# Nebulous game server: world-state model

This project models the authoritative world of the Nebulous arena server
(`server.js`): a map from socket id to live player and a sequence of food
pellets, changed by one handler per socket event. Each handler is a pure
Dafny function from the world (plus whatever the handler receives from
outside: the payload, the record store's replies, the random draws) to the
next world.

- `WorldModel` (world.dfy): the constants (`MAP_SIZE` = 4000, start radius
  25, growth 0.25, 2 xp and 1 score per pellet, replenishment of 5 below
  500), the `Blob`, `Food`, `Player` and `World` datatypes and the world
  invariant `Valid`.
- `Spawner` (spawner.dfy): `spawnFood`, the start-up population and the
  replenishment after an input step.
- `Movement` (movement.dfy): the dead-zone test, the speed
  `max(1, 8 - r/60)` and the clamp to the map.
- `Consumption` (consumption.dfy): one blob's `food.filter` pass, as a left
  fold in which every pellet eaten grows the blob before the next pellet
  is tested, and the same pass as a loop.
- `InputStep` (input_step.dfy): the `update_input` handler.
- `Session` (session.dfy): the `auth` and `disconnect` handlers and the
  level formula `floor(sqrt(xp / 200)) + 1`.
- `Server` (server.dfy): events handled one after another, and the world
  invariant over any run of them.
- `Arith` (arith.dfy) and `Wrappers` (wrappers.dfy): monotonicity facts
  about products, and the optional and store-reply types.

Modelling choices:

- Coordinates and radii are `real`, so the arithmetic is exact. The eat
  test `sqrt(dx² + dy²) < r` is stated as `dx² + dy² < r²`, and the
  dead-zone test `dist > 10` as `dx² + dy² > 100`. The lemmas
  `WithinMatchesDistance` and `DeadZoneMatchesDistance` show that each
  squared test agrees with the server's test for any non-negative square
  root.
- Every `Math.random()` value is an input in [0, 1). A pellet takes four
  of them (a `Draw`) and a new player's position takes two.
- The unit direction `(dx / dist, dy / dist)` is an arbitrary vector `dir`
  given by the caller. The speed is computed exactly. The blob moves by
  `dir` times its speed only outside the dead zone. Clamping keeps the
  blob in the map for any finite `dir`.
- An input field that is missing, or not convertible to a number, makes
  the JavaScript offset NaN. It is modelled as `None`. Every comparison with NaN is
  false, so the blob does not move. The clamp, the eating and the
  replenishment still run.
- `a || b` on the optional `skinId` falls back to `b` when the skin is
  missing or is the empty string (`OrElse`).
- The record store is not called. The replies of `findOne` and
  `create` are inputs (`StoreReply`), and a failed reply is the
  `'Szerver hiba történt.'` error. The update sent on disconnect is an
  output (`Save`). The entry is removed whatever the store answers.
  `ApplySave` states what the store does with that update.
- The code has no `change_skin` handler, never reads or writes
  `highScore`, gives a new record the requested skin or else `'starter'`,
  and draws pellet ids at random.

## Model

| member | source | states |
|---|---|---|
| Spawner.ColorIndex | server.js:39-45 | the colour index `floor(u * 6)` of a draw in [0, 1) is a valid index into the six-colour palette |
| Spawner.Pellet | server.js:41-46 | a pellet built from a draw lies in the map, has the drawn id and a palette colour |
| Spawner.SpawnFood | server.js:38-48 | `spawnFood(count)` appends exactly `count` pellets, the i-th new one built from the i-th draw and inside the map, and leaves the existing pellets unchanged and in place |
| Spawner.SpawnFoodInMap | server.js:38-48 | spawning keeps the whole food sequence inside the map exactly when the old food was inside it |
| Spawner.InitialFood | server.js:49 | the start-up population has 500 pellets, all inside the map |
| Spawner.InitialWorld | server.js:34-49 | the world at start-up has no players and 500 pellets, and satisfies the world invariant |
| Spawner.Replenish | server.js:122 | with fewer than 500 pellets exactly 5 are appended after the old ones; otherwise the food is unchanged; the invariant that food lies in the map is kept |
| Movement.Offset | server.js:97-98 | the pointer offset exists exactly when all four input fields are present, and is then `(mx - vw / 2, my - vh / 2)`, the pointer's offset from the viewport centre |
| Movement.OutsideDeadZone | server.js:97-102 | a payload with a missing field never moves the blob; a pointer at `(vw / 2, vh / 2)` is in the dead zone; a pointer more than 10 from that centre along either axis, in either direction, is outside it |
| Movement.DeadZoneMatchesDistance | server.js:97-102 | the dead-zone test agrees with `dist > 10` for any non-negative `dist` whose square is `dx * dx + dy * dy`, with `dx = mx - vw / 2` and `dy = my - vh / 2` taken from the payload |
| Movement.Speed | server.js:100 | the speed is at least 1, at most 8 for a non-negative radius, equals `8 - r/60` up to radius 420 and 1 from there on |
| Movement.SpeedNonIncreasing | server.js:100 | a larger radius never gives a higher speed |
| Movement.Clamp | server.js:107-108 | the clamped coordinate lies in [0, MAP_SIZE]; an in-map value is kept; a value below 0 becomes 0 and one above MAP_SIZE becomes MAP_SIZE |
| Movement.ClampNonExpansive | server.js:107-108 | clamping an in-map coordinate after a step moves it no further than the step, and in the same direction |
| Movement.MoveAxis | server.js:102-108 | a moved coordinate always ends in the map; without movement an in-map coordinate is unchanged |
| Movement.MoveBlob | server.js:96-108 | after moving, a blob is inside the map whatever the displacement; the radius is unchanged; a blob in the dead zone that is inside the map does not move |
| Movement.MoveAxisInterior | server.js:103-108 | a coordinate whose displaced value `v + u * s` lies in the map ends exactly there; the clamp does not change it |
| Movement.MoveBlobInterior | server.js:100-108 | a moving blob whose displaced centre lies in the map ends exactly at its old centre plus `dir` times `Speed(r)`, with its radius kept |
| Movement.MoveAxisAtWall | server.js:103-108 | a move that would take a coordinate below 0 ends at 0, and one that would take it past MAP_SIZE ends at MAP_SIZE |
| Movement.MoveAxisBounded | server.js:102-108 | a clamped move with a direction component in [-1, 1] changes a coordinate by at most the speed |
| Movement.MoveBlobBounded | server.js:96-108 | a blob inside the map moves at most its speed along each axis |
| Consumption.Within | server.js:112-113 | a blob of radius zero eats nothing, and a pellet at the very centre of a blob of positive radius is eaten |
| Consumption.Consume | server.js:111-120 | the filter pass keeps the blob's position, grows its radius by 0.25 per pellet eaten (so it never shrinks), and leaves as survivors an in-order subsequence of the food with every pellet either eaten or kept |
| Consumption.ConsumeAppend | server.js:111-120 | the pass over `xs + ys` is the pass over `xs` followed by the pass over `ys` with the grown blob, so later pellets are tested against the grown radius |
| Consumption.FilterPass | server.js:111-120 | the loop with a mutable radius, eating each pellet inside the current radius and keeping the others in order, computes the same blob, survivors and count as the fold |
| Consumption.ConsumeDecides | server.js:112-119 | the i-th pellet is eaten, growing the blob by 0.25, exactly when it lies within the blob as grown by the pellets before it; otherwise it is appended to the survivors |
| Consumption.ConsumeFarFood | server.js:112-119 | if no pellet lies within even the largest radius the pass could reach, nothing is eaten and the food is unchanged |
| Consumption.WithinMonotone | server.js:113-114 | a pellet within a blob is still within it after the blob grows |
| Consumption.WithinMatchesDistance | server.js:112-113 | the squared eat test agrees with `d < r` for the non-negative square root `d` and a non-negative radius |
| Consumption.SubsequenceMultiset | server.js:111-120 | the survivors of a pass contain no pellet that was not in the food before, and no extra copy of one |
| Consumption.SubsequenceTransitive | server.js:96-121 | what survives the passes of several blobs in turn is still an in-order subsequence of the original food |
| Consumption.SubsequenceInMap | server.js:111-120 | surviving pellets of in-map food are in the map |
| Consumption.EatAdjacentPellet | server.js:111-117 | a blob of radius 25 at (100, 100) eats a pellet at (105, 100) and its radius becomes 25.25 |
| InputStep.StepBlobs | server.js:96-121 | every blob ends at the position its own move gives, in the map, with a radius no smaller than before; the radii together grow by 0.25 per pellet eaten; the pellets eaten plus those left equal the food before, and those left are an in-order subsequence of it |
| InputStep.UpdateInput | server.js:92-123 | an unknown socket leaves the world unchanged; otherwise only the sender's entry changes, keeping its id, record id, name, level and skin; every blob ends at its moved position in the map and none shrinks; score grows by the pellets eaten, xp by twice that and the total radius by 0.25 per pellet; and the food is the in-order survivors followed by 5 new pellets exactly when fewer than 500 survived |
| InputStep.UpdateInputOneBlob | server.js:96-122 | for a player with one blob, the blob after the step is the moved blob after the filter pass over the whole food; score grows by the pellets that pass eats and xp by twice that; the new food starts with exactly the pellets the pass keeps, in order |
| InputStep.UpdateInputValid | server.js:92-123 | an input step keeps the world invariant: blobs and food in the map, radii positive, each player under its own socket id |
| InputStep.StillPlayerFarFromFoodGainsNothing | server.js:96-121 | a player in the dead zone with every pellet beyond reach keeps its blobs, score and xp |
| InputStep.StillBlobsFarFromFood | server.js:96-121 | blobs that do not move and have no pellet within reach come out of the pass unchanged, and the food is untouched |
| Session.OrElse | server.js:62-75 | `a || b` on an optional skin gives the requested skin when it is present and non-empty, and the fallback otherwise |
| Session.NewRecord | server.js:59-63 | a created record has the request's id, name and password, xp 0 with the level that xp gives, and a non-empty skin: the requested one if given, else the starter skin |
| Session.Hydrate | server.js:69-78 | the live player has score 0, exactly one blob of radius 25 inside the map, and the record's id, name, xp and level, with the requested skin or else the stored one |
| Session.Authenticate | server.js:54-89 | a store failure and a wrong password are `auth_error` with the world unchanged; an unknown name gets a new record (xp 0, level 1, requested or starter skin) and is admitted; a right password admits the record; admission adds exactly this socket's entry, filed under the created or found record's id and name, and answers with its progression; food and other players never change |
| Session.Admit | server.js:69-85 | admission adds exactly this socket's entry, with the record's id, xp and level, a valid single starting blob, and the same xp, level and skin in the `auth_success` reply; food and other players are unchanged |
| Session.AuthenticateValid | server.js:54-89 | authentication keeps the world invariant |
| Session.SqrtFrom | server.js:129 | counting up from a small enough root finds the integer square root |
| Session.FloorSqrt | server.js:129 | the integer square root is the largest root whose square is at most `n` |
| Session.Level | server.js:129 | the level is the largest `L >= 1` with `200 (L - 1)^2 <= xp` |
| Session.LevelUnique | server.js:129 | any level meeting those bounds is the computed level, so the level depends only on xp |
| Session.LevelMonotone | server.js:129 | more xp never gives a lower level |
| Session.LevelMatchesSqrt | server.js:129 | the integer formula equals `floor(sqrt(xp / 200)) + 1` for the real square root |
| Session.Disconnect | server.js:126-141 | a known socket's entry is removed, with a save of its xp, its skin and the level computed from its xp; other entries and the food are unchanged; an unknown socket is a no-op |
| Session.DisconnectValid | server.js:126-141 | disconnecting keeps the world invariant |
| Session.ApplySave | server.js:131-135 | the saved record takes the saved xp, level and skin and keeps its id and credentials; other records are untouched |
| Session.ReauthRestoresProgress | server.js:54-141 | after disconnecting and saving, authenticating again with the same password returns the player's xp, the level computed from it and its skin |
| Session.NewPlayerProgressSurvives | server.js:54-141 | a new name's login files the entry under the created record's id; after an input step the disconnect save targets that id, and the next login with the same password returns the xp the player ended with, its level and its skin |
| Session.NewPlayerFirstSession | server.js:57-63 | an unknown name with no skin is answered with xp 0, level 1 and the starter skin, and disconnecting at once saves level 1 |
| Session.RejectedSocketInputIsNoop | server.js:64-94 | after a wrong password the socket has no entry, so its input changes nothing |
| Server.Handle | server.js:52-141 | a handler touches only its own socket's entry; only an input step changes the food; a disconnect always removes the entry; an input never adds or removes one |
| Server.HandleValid | server.js:52-141 | every handler keeps the world invariant |
| Server.RunValid | server.js:49-141 | from a valid world, after any sequence of events, every blob and pellet is inside the map and every radius is positive |
| Server.UnknownSocketInputsAreNoops | server.js:92-94 | any run of input events from a socket without an entry leaves the world unchanged |
| Server.HandleKeepsOneBlob | server.js:69-141 | if every live player has exactly one blob, so does every player after any handler |
| Server.RunKeepsOneBlob | server.js:49-141 | from a world with one blob per player (start-up has none), every run of events keeps one blob per player |

## Left out

- Express static serving, the HTTP and socket.io setup and `server.listen` (server.js:1-13, 149-150) are transport plumbing.
- The MongoDB connection, schema and the asynchronous `findOne`, `create` and `findByIdAndUpdate` calls (server.js:56, 59-63, 131-138) are foreign library calls. Their replies are inputs, and the save is an output. The handlers run as single atomic steps. Events that run while the server awaits the store are not interleaved.
- The 33 ms `game_state` broadcast (server.js:145-147) is timer-driven output. It only sends the world as it is.
- `Math.random` is modelled as given values in [0, 1). The model makes no claim that pellet ids are unique, because the code draws them at random.
- Movement: the direction `(dx / dist, dy / dist)` is an arbitrary vector, because it needs `Math.sqrt`. IEEE-754 rounding is not modelled; all arithmetic is on exact reals.
- Movement.Offset: the model always has a payload object. In the server a missing or `null` payload makes `data.mx` throw a TypeError at server.js:97, inside the `forEach`. The handler is abandoned before any clamp, eating or replenishment, and the error leaves the listener. The model has no such case.
- InputStep.StepBlobs: which pellets a pass eats is stated per pellet for one blob (`ConsumeDecides`). For the handler it is stated exactly for a one-blob player (`UpdateInputOneBlob`). For several blobs the contract gives positions, counts, total growth and in-order survivors, but not the per-pellet choice of each later blob. No reachable world has such a player: the `auth` handler creates exactly one blob (server.js:76) and no handler adds one, which `Server.RunKeepsOneBlob` proves, so `UpdateInputOneBlob` covers every input step the server can see.
- Movement.MoveBlob: the in-map guarantee holds only for finite offsets. In the server a numeric payload such as `mx = 1.7e308, vw = -1.7e308` overflows `dx` to Infinity, `dx / dist` becomes NaN, and `Math.min`/`Math.max` pass the NaN through, so the blob leaves the map for good and never eats again. Reals have no Infinity or NaN, so the model cannot represent this; `UpdateInput` and `RunValid` inherit the same restriction.
- Session.Level: stored xp is taken to be a non-negative integer. A negative stored xp would make the server compute NaN.
- The `change_skin` event, high scores and blobs eating each other are not modelled. The code has no such handlers and never writes `highScore`.

=== FILE: arith.dfy ===
/** Monotonicity facts about products, which the solver does not find on
    its own once products of two variables appear. */
module Arith {

  lemma MulMonotone(a: real, b: real, c: real)
    requires a <= b && c >= 0.0
    ensures a * c <= b * c
  {
    assert b * c - a * c == (b - a) * c;
  }

  lemma SquareMonotone(a: real, b: real)
    requires 0.0 <= a <= b
    ensures a * a <= b * b
  {
    assert b * b - a * a == (b - a) * (b + a);
  }

  lemma SquareStrictMonotone(a: real, b: real)
    requires 0.0 <= a < b
    ensures a * a < b * b
  {
    var p, q := b - a, b + a;
    assert p * q > 0.0;
    assert b * b - a * a == p * q;
  }

  lemma SquareMonotoneInt(a: int, b: int)
    requires 0 <= a <= b
    ensures a * a <= b * b
  {
    assert b * b - a * a == (b - a) * (b + a);
  }
}

=== FILE: consumption.dfy ===
/** Food consumption by one blob: the `food.filter` pass. Pellets are
    tested in order, and each one eaten grows the blob before the next
    pellet is tested, so the pass is a left fold over the food sequence. */
module Consumption {
  import opened WorldModel
  import opened Arith

  /** The blob after the pass, the pellets that survived it (in order),
      and how many were eaten. */
  datatype Consumed = Consumed(blob: Blob, survivors: seq<Food>, eaten: nat)

  /** The eat test `d < r`, on squared distances: a blob of radius zero
      eats nothing, and a pellet at the very centre of a blob of positive
      radius is eaten. */
  predicate Within(f: Food, b: Blob)
    ensures b.r == 0.0 ==> !Within(f, b)
    ensures f.x == b.x && f.y == b.y && b.r > 0.0 ==> Within(f, b)
  {
    var dx, dy := f.x - b.x, f.y - b.y;
    assert f.x == b.x && f.y == b.y && b.r > 0.0 ==> dx * dx + dy * dy < b.r * b.r by {
      if f.x == b.x && f.y == b.y && b.r > 0.0 {
        SquareStrictMonotone(dx, b.r);
        SquareMonotone(dy, dx);
      }
    }
    dx * dx + dy * dy < b.r * b.r
  }

  /** The blob after eating one pellet. */
  function Grow(b: Blob): (g: Blob)
    ensures g.x == b.x && g.y == b.y && g.r == b.r + GROWTH
  {
    b.(r := b.r + GROWTH)
  }

  /** `s` is an in-order subsequence of `t`: `t` with some elements
      dropped and none added or reordered. */
  predicate IsSubsequence<T(==)>(s: seq<T>, t: seq<T>)
    decreases |t|
  {
    || s == []
    || (&& t != []
        && ((s[0] == t[0] && IsSubsequence(s[1..], t[1..])) || IsSubsequence(s, t[1..])))
  }

  /** The filter pass of one blob over the food sequence. The blob keeps
      its position; its radius grows by GROWTH per pellet eaten, so it
      never shrinks; every pellet is either eaten or survives; and the
      survivors are the pellets in their original order with the eaten
      ones dropped. */
  function Consume(b: Blob, fs: seq<Food>): (c: Consumed)
    ensures c.blob.x == b.x && c.blob.y == b.y
    ensures c.blob.r == b.r + GROWTH * c.eaten as real
    ensures c.blob.r >= b.r
    ensures c.eaten + |c.survivors| == |fs|
    ensures IsSubsequence(c.survivors, fs)
    decreases |fs|
  {
    if fs == [] then Consumed(b, [], 0)
    else if Within(fs[0], b) then
      var c := Consume(Grow(b), fs[1..]);
      Consumed(c.blob, c.survivors, c.eaten + 1)
    else
      var c := Consume(b, fs[1..]);
      Consumed(c.blob, [fs[0]] + c.survivors, c.eaten)
  }

  /** Running the pass over `xs + ys` is running it over `xs` and then,
      with the blob as grown by `xs`, over `ys`. */
  lemma {:induction false} ConsumeAppend(b: Blob, xs: seq<Food>, ys: seq<Food>)
    ensures var a := Consume(b, xs);
            var c := Consume(a.blob, ys);
            Consume(b, xs + ys) == Consumed(c.blob, a.survivors + c.survivors, a.eaten + c.eaten)
    decreases |xs|
  {
    if xs == [] {
      assert xs + ys == ys;
    } else {
      assert (xs + ys)[0] == xs[0];
      assert (xs + ys)[1..] == xs[1..] + ys;
      if Within(xs[0], b) {
        ConsumeAppend(Grow(b), xs[1..], ys);
      } else {
        ConsumeAppend(b, xs[1..], ys);
        var a := Consume(b, xs[1..]);
        var c := Consume(a.blob, ys);
        assert [xs[0]] + (a.survivors + c.survivors) == ([xs[0]] + a.survivors) + c.survivors;
      }
    }
  }

  /** The pass as the server writes it: a loop over the pellets with a
      mutable radius, keeping each pellet outside the current radius and
      eating each one inside it. It computes exactly `Consume`. */
  method FilterPass(b: Blob, fs: seq<Food>) returns (blob: Blob, kept: seq<Food>, eaten: nat)
    ensures Consumed(blob, kept, eaten) == Consume(b, fs)
  {
    blob, kept, eaten := b, [], 0;
    var i := 0;
    while i < |fs|
      invariant 0 <= i <= |fs|
      invariant Consume(b, fs[..i]) == Consumed(blob, kept, eaten)
    {
      assert fs[..i + 1] == fs[..i] + [fs[i]];
      ConsumeAppend(b, fs[..i], [fs[i]]);
      if Within(fs[i], blob) {
        blob := Grow(blob);
        eaten := eaten + 1;
      } else {
        kept := kept + [fs[i]];
      }
      i := i + 1;
    }
    assert fs[..|fs|] == fs;
  }

  /** A pellet survives the pass exactly when it lies outside the blob as
      grown by the pellets before it. */
  lemma {:induction false} ConsumeDecides(b: Blob, fs: seq<Food>, i: nat)
    requires i < |fs|
    ensures var before := Consume(b, fs[..i]);
            var after := Consume(b, fs[..i + 1]);
            && (Within(fs[i], before.blob) ==> after == Consumed(Grow(before.blob), before.survivors, before.eaten + 1))
            && (!Within(fs[i], before.blob) ==> after == Consumed(before.blob, before.survivors + [fs[i]], before.eaten))
  {
    assert fs[..i + 1] == fs[..i] + [fs[i]];
    ConsumeAppend(b, fs[..i], [fs[i]]);
  }

  /** Nothing is eaten from food that lies outside the blob even when it
      has grown to `b.r + GROWTH * |fs|`. */
  lemma {:induction false} ConsumeFarFood(b: Blob, fs: seq<Food>)
    requires b.r >= 0.0
    requires forall i :: 0 <= i < |fs| ==> !Within(fs[i], b.(r := b.r + GROWTH * |fs| as real))
    ensures Consume(b, fs) == Consumed(b, fs, 0)
    decreases |fs|
  {
    if fs != [] {
      var big := b.(r := b.r + GROWTH * |fs| as real);
      assert !Within(fs[0], big);
      WithinMonotone(fs[0], b, big);
      var rest := fs[1..];
      var mid := b.(r := b.r + GROWTH * |rest| as real);
      forall i | 0 <= i < |rest|
        ensures !Within(rest[i], mid)
      {
        assert rest[i] == fs[i + 1];
        WithinMonotone(rest[i], mid, big);
      }
      ConsumeFarFood(b, rest);
    }
  }

  /** Growing a blob in place can only bring more pellets within it. */
  lemma WithinMonotone(f: Food, small: Blob, big: Blob)
    requires small.x == big.x && small.y == big.y
    requires 0.0 <= small.r <= big.r
    ensures Within(f, small) ==> Within(f, big)
  {
    SquareMonotone(small.r, big.r);
  }

  /** The squared test agrees with the server's `Math.sqrt` test: for a
      non-negative radius and any non-negative `d` whose square is the
      squared distance, `d < r` exactly when the pellet is within. */
  lemma WithinMatchesDistance(f: Food, b: Blob, d: real)
    requires b.r >= 0.0 && d >= 0.0
    requires d * d == (f.x - b.x) * (f.x - b.x) + (f.y - b.y) * (f.y - b.y)
    ensures Within(f, b) <==> d < b.r
  {
    var r := b.r;
    if d < r {
      assert d * d < r * r by { SquareStrictMonotone(d, r); }
    } else {
      assert r * r <= d * d by { SquareMonotone(r, d); }
    }
  }

  /** A subsequence never contains a pellet its origin did not contain,
      nor more copies of it. */
  lemma {:induction false} SubsequenceMultiset<T>(s: seq<T>, t: seq<T>)
    requires IsSubsequence(s, t)
    ensures multiset(s) <= multiset(t)
    ensures |s| <= |t|
    decreases |t|
  {
    if s == [] {
    } else if s[0] == t[0] && IsSubsequence(s[1..], t[1..]) {
      SubsequenceMultiset(s[1..], t[1..]);
      assert s == [s[0]] + s[1..];
      assert t == [t[0]] + t[1..];
    } else {
      SubsequenceMultiset(s, t[1..]);
      assert t == [t[0]] + t[1..];
    }
  }

  /** Every sequence is a subsequence of itself (nothing dropped). */
  lemma {:induction false} SubsequenceReflexive<T>(s: seq<T>)
    ensures IsSubsequence(s, s)
    decreases |s|
  {
    if s != [] {
      SubsequenceReflexive(s[1..]);
    }
  }

  /** Subsequences compose: what survives two passes survived the first. */
  lemma {:induction false} SubsequenceTransitive<T>(a: seq<T>, b: seq<T>, c: seq<T>)
    requires IsSubsequence(a, b) && IsSubsequence(b, c)
    ensures IsSubsequence(a, c)
    decreases |c|
  {
    if a == [] {
    } else if b == [] {
      assert false;
    } else if b[0] == c[0] && IsSubsequence(b[1..], c[1..]) {
      if a[0] == b[0] && IsSubsequence(a[1..], b[1..]) {
        SubsequenceTransitive(a[1..], b[1..], c[1..]);
      } else {
        SubsequenceTransitive(a, b[1..], c[1..]);
      }
    } else {
      SubsequenceTransitive(a, b, c[1..]);
    }
  }

  /** Every pellet of a subsequence of in-map food is in the map. */
  lemma {:induction false} SubsequenceInMap(s: seq<Food>, t: seq<Food>)
    requires IsSubsequence(s, t) && FoodInMap(t)
    ensures FoodInMap(s)
    decreases |t|
  {
    if s == [] {
    } else if s[0] == t[0] && IsSubsequence(s[1..], t[1..]) {
      SubsequenceInMap(s[1..], t[1..]);
      assert forall i :: 1 <= i < |s| ==> s[i] == s[1..][i - 1];
    } else {
      SubsequenceInMap(s, t[1..]);
    }
  }

  /** The scenario of a blob of radius 25 at (100, 100) and one pellet at
      (105, 100): the pellet is eaten and the radius becomes 25.25. */
  lemma EatAdjacentPellet(id: real, c: string)
    ensures Consume(Blob(100.0, 100.0, 25.0), [Food(id, 105.0, 100.0, c)])
         == Consumed(Blob(100.0, 100.0, 25.25), [], 1)
  {
    var f := Food(id, 105.0, 100.0, c);
    assert Within(f, Blob(100.0, 100.0, 25.0));
    assert [f][1..] == [];
  }
}

=== FILE: input_step.dfy ===
/** The `update_input` handler: every blob of the player moves, is clamped
    and eats from the current food in turn; the player is credited for the
    pellets eaten; then the food is replenished. */
module InputStep {
  import opened WorldModel
  import opened Spawner
  import opened Movement
  import opened Consumption

  /** The player's blobs after the pass, the food left, and the number of
      pellets eaten by all blobs together. */
  datatype BlobsStep = BlobsStep(blobs: seq<Blob>, food: seq<Food>, eaten: nat)

  /** The sum of the radii of some blobs. */
  function TotalRadius(bs: seq<Blob>): (total: real)
  {
    if bs == [] then 0.0 else bs[0].r + TotalRadius(bs[1..])
  }

  /** The blobs in array order, each moving and then eating from the food
      the earlier blobs left, so no pellet is eaten twice. Every blob ends
      where its move put it, and the radii together grow by GROWTH per
      pellet eaten. */
  function StepBlobs(bs: seq<Blob>, dir: Vec, moving: bool, food: seq<Food>): (s: BlobsStep)
    ensures |s.blobs| == |bs|
    ensures forall i :: 0 <= i < |bs| ==>
      s.blobs[i].x == MoveBlob(bs[i], dir, moving).x && s.blobs[i].y == MoveBlob(bs[i], dir, moving).y
    ensures forall i :: 0 <= i < |bs| ==> InMap(s.blobs[i].x, s.blobs[i].y)
    ensures forall i :: 0 <= i < |bs| ==> s.blobs[i].r >= bs[i].r
    ensures TotalRadius(s.blobs) == TotalRadius(bs) + GROWTH * s.eaten as real
    ensures s.eaten + |s.food| == |food|
    ensures IsSubsequence(s.food, food)
    decreases |bs|
  {
    if bs == [] then
      SubsequenceReflexive(food);
      BlobsStep([], food, 0)
    else
      var moved := MoveBlob(bs[0], dir, moving);
      var c := Consume(moved, food);
      var rest := StepBlobs(bs[1..], dir, moving, c.survivors);
      SubsequenceTransitive(rest.food, c.survivors, food);
      var blobs := [c.blob] + rest.blobs;
      assert blobs[1..] == rest.blobs;
      assert TotalRadius(blobs) == c.blob.r + TotalRadius(rest.blobs);
      BlobsStep(blobs, rest.food, c.eaten + rest.eaten)
  }

  /** The handler. `dir` stands for the unit vector `(dx / dist, dy / dist)`
      and `draws` for the random values a replenishment would use. */
  function UpdateInput(w: World, sid: SocketId, inp: Input, dir: Vec, draws: seq<Draw>): (r: World)
    requires |draws| == SPAWN_BATCH && ValidDraws(draws)
    // An unknown socket changes nothing, players or food.
    ensures sid !in w.players ==> r == w
    // No player joins or leaves, and no other player changes.
    ensures r.players.Keys == w.players.Keys
    ensures forall s :: s in w.players && s != sid ==> r.players[s] == w.players[s]
    // The player keeps its identity, progression fields and number of blobs.
    ensures sid in w.players ==>
      var p, q := w.players[sid], r.players[sid];
      && q.id == p.id && q.dbId == p.dbId && q.username == p.username
      && q.level == p.level && q.skinId == p.skinId
      && |q.blobs| == |p.blobs|
    // Every blob ends inside the map, whatever the displacement, and no blob shrinks.
    ensures sid in w.players ==>
      var p, q := w.players[sid], r.players[sid];
      forall i :: 0 <= i < |q.blobs| ==> InMap(q.blobs[i].x, q.blobs[i].y) && q.blobs[i].r >= p.blobs[i].r
    // Every blob ends where its move along `dir` put it.
    ensures sid in w.players ==>
      var p, q := w.players[sid], r.players[sid];
      forall i :: 0 <= i < |q.blobs| ==>
        var m := MoveBlob(p.blobs[i], dir, OutsideDeadZone(inp));
        q.blobs[i].x == m.x && q.blobs[i].y == m.y
    // Score counts the pellets eaten; xp gains two per pellet, and the
    // radii together grow by GROWTH per pellet.
    ensures sid in w.players ==>
      var p, q := w.players[sid], r.players[sid];
      && q.score >= p.score
      && q.xp == p.xp + XP_PER_PELLET * (q.score - p.score)
      && TotalRadius(q.blobs) == TotalRadius(p.blobs) + GROWTH * (q.score - p.score) as real
    // The food is the in-order survivors of the old food, followed by a
    // batch of new pellets exactly when fewer than FOOD_TARGET survived.
    ensures sid in w.players ==>
      var eaten := r.players[sid].score - w.players[sid].score;
      var left := |w.food| - eaten;
      && 0 <= left <= |r.food|
      && IsSubsequence(r.food[..left], w.food)
      && |r.food| == (if left < FOOD_TARGET then left + SPAWN_BATCH else left)
  {
    if sid !in w.players then w
    else
      var p := w.players[sid];
      var s := StepBlobs(p.blobs, dir, OutsideDeadZone(inp), w.food);
      var q := p.(blobs := s.blobs, xp := p.xp + XP_PER_PELLET * s.eaten, score := p.score + SCORE_PER_PELLET * s.eaten);
      World(w.players[sid := q], Replenish(s.food, draws))
  }

  /** A player with one blob: the blob moves, then runs the filter pass
      over the whole food sequence; the player is credited with exactly
      the pellets that pass eats, and the food starts with exactly the
      pellets it keeps, in order. */
  lemma UpdateInputOneBlob(w: World, sid: SocketId, inp: Input, dir: Vec, draws: seq<Draw>)
    requires |draws| == SPAWN_BATCH && ValidDraws(draws)
    requires sid in w.players && |w.players[sid].blobs| == 1
    ensures var p, r := w.players[sid], UpdateInput(w, sid, inp, dir, draws);
            var q := r.players[sid];
            var c := Consume(MoveBlob(p.blobs[0], dir, OutsideDeadZone(inp)), w.food);
            && q.blobs == [c.blob]
            && q.score == p.score + c.eaten
            && q.xp == p.xp + XP_PER_PELLET * c.eaten
            && |c.survivors| <= |r.food|
            && r.food[..|c.survivors|] == c.survivors
  {
    var p := w.players[sid];
    var moving := OutsideDeadZone(inp);
    var c := Consume(MoveBlob(p.blobs[0], dir, moving), w.food);
    var st := StepBlobs(p.blobs, dir, moving, w.food);
    assert StepBlobs(p.blobs[1..], dir, moving, c.survivors) == BlobsStep([], c.survivors, 0);
    assert st == BlobsStep([c.blob], c.survivors, c.eaten);
    assert UpdateInput(w, sid, inp, dir, draws).food == Replenish(st.food, draws);
  }

  /** Every input step keeps the world invariant. */
  lemma UpdateInputValid(w: World, sid: SocketId, inp: Input, dir: Vec, draws: seq<Draw>)
    requires |draws| == SPAWN_BATCH && ValidDraws(draws)
    requires Valid(w)
    ensures Valid(UpdateInput(w, sid, inp, dir, draws))
  {
    if sid in w.players {
      var p := w.players[sid];
      var s := StepBlobs(p.blobs, dir, OutsideDeadZone(inp), w.food);
      SubsequenceInMap(s.food, w.food);
      var r := UpdateInput(w, sid, inp, dir, draws);
      assert r.food == Replenish(s.food, draws);
      assert PlayerOk(p);
      assert PlayerOk(r.players[sid]);
    }
  }

  /** A player whose blobs are all far from every pellet (beyond their
      radius grown by every pellet there is) and who does not move gains
      nothing, and the food loses nothing. */
  lemma StillPlayerFarFromFoodGainsNothing(w: World, sid: SocketId, inp: Input, dir: Vec, draws: seq<Draw>)
    requires |draws| == SPAWN_BATCH && ValidDraws(draws)
    requires sid in w.players && PlayerOk(w.players[sid])
    requires !OutsideDeadZone(inp)
    requires FarFromFood(w.players[sid].blobs, w.food)
    ensures var q := UpdateInput(w, sid, inp, dir, draws).players[sid];
      q.score == w.players[sid].score && q.xp == w.players[sid].xp && q.blobs == w.players[sid].blobs
  {
    var p := w.players[sid];
    StillBlobsFarFromFood(p.blobs, dir, w.food);
  }

  /** No pellet within reach of any blob, even grown by every pellet. */
  predicate FarFromFood(bs: seq<Blob>, food: seq<Food>) {
    forall i, j :: 0 <= i < |bs| && 0 <= j < |food| ==>
      !Within(food[j], bs[i].(r := bs[i].r + GROWTH * |food| as real))
  }

  lemma {:induction false} StillBlobsFarFromFood(bs: seq<Blob>, dir: Vec, food: seq<Food>)
    requires forall i :: 0 <= i < |bs| ==> BlobOk(bs[i])
    requires FarFromFood(bs, food)
    ensures StepBlobs(bs, dir, false, food) == BlobsStep(bs, food, 0)
    decreases |bs|
  {
    if bs != [] {
      var b, tail := bs[0], bs[1..];
      assert MoveBlob(b, dir, false) == b;
      assert forall j :: 0 <= j < |food| ==> !Within(food[j], b.(r := b.r + GROWTH * |food| as real));
      ConsumeFarFood(b, food);
      assert FarFromFood(tail, food) by {
        forall i, j | 0 <= i < |tail| && 0 <= j < |food|
          ensures !Within(food[j], tail[i].(r := tail[i].r + GROWTH * |food| as real))
        {
          assert tail[i] == bs[i + 1];
        }
      }
      StillBlobsFarFromFood(tail, dir, food);
      assert StepBlobs(bs, dir, false, food) == BlobsStep([b] + tail, food, 0);
      assert [b] + tail == bs;
    }
  }
}

=== FILE: movement.dfy ===
/** Blob movement: the dead-zone test on the client's pointer offset, the
    size-dependent speed, and the hard clamp to the map. The unit direction
    `(dx / dist, dy / dist)` needs a square root and is supplied by the
    caller as an arbitrary vector; everything else is computed exactly. */
module Movement {
  import opened Wrappers
  import opened WorldModel
  import opened Arith

  // The movement constants appear as numeric literals: a dead zone of 10
  // (squared: 100), a minimum speed of 1, a base speed of 8 and a size
  // damping of 60, so the speed bottoms out at radius (8 - 1) * 60 = 420.

  /** The `update_input` payload. A missing or non-numeric field makes
      JavaScript arithmetic produce NaN; it is modelled as `None`. */
  datatype Input = Input(mx: Option<real>, my: Option<real>, vw: Option<real>, vh: Option<real>)

  datatype Vec = Vec(x: real, y: real)

  /** The pointer offset from the viewport centre, or `None` (NaN) when a
      field is missing. */
  function Offset(inp: Input): (d: Option<Vec>)
    ensures d.Some? <==> inp.mx.Some? && inp.my.Some? && inp.vw.Some? && inp.vh.Some?
    ensures d.Some? ==> d.value.x + inp.vw.value / 2.0 == inp.mx.value && d.value.y + inp.vh.value / 2.0 == inp.my.value
  {
    if inp.mx.Some? && inp.my.Some? && inp.vw.Some? && inp.vh.Some? then
      Some(Vec(inp.mx.value - inp.vw.value / 2.0, inp.my.value - inp.vh.value / 2.0))
    else None
  }

  /** `dist > 10`, stated on the squared distance; every comparison with
      NaN is false, so a malformed payload never moves the blob. A pointer
      at the viewport centre is in the dead zone, and one more than 10
      away from it along either axis, in either direction, is not. */
  predicate OutsideDeadZone(inp: Input)
    ensures inp.mx.None? || inp.my.None? || inp.vw.None? || inp.vh.None? ==> !OutsideDeadZone(inp)
    ensures Offset(inp).Some? && inp.mx.value == inp.vw.value / 2.0 && inp.my.value == inp.vh.value / 2.0 ==>
      !OutsideDeadZone(inp)
    ensures Offset(inp).Some? ==>
      var dx, dy := inp.mx.value - inp.vw.value / 2.0, inp.my.value - inp.vh.value / 2.0;
      dx > 10.0 || dx < -10.0 || dy > 10.0 || dy < -10.0 ==> OutsideDeadZone(inp)
  {
    match Offset(inp)
    case None => false
    case Some(d) =>
      assert d.x * d.x >= 0.0 && d.y * d.y >= 0.0 by {
        if d.x < 0.0 { MulMonotone(d.x, 0.0, -d.x); } else { MulMonotone(0.0, d.x, d.x); }
        if d.y < 0.0 { MulMonotone(d.y, 0.0, -d.y); } else { MulMonotone(0.0, d.y, d.y); }
      }
      assert (d.x > 10.0 || d.x < -10.0) ==> d.x * d.x > 100.0 by {
        if d.x > 10.0 { SquareStrictMonotone(10.0, d.x); }
        if d.x < -10.0 { SquareStrictMonotone(10.0, -d.x); }
      }
      assert (d.y > 10.0 || d.y < -10.0) ==> d.y * d.y > 100.0 by {
        if d.y > 10.0 { SquareStrictMonotone(10.0, d.y); }
        if d.y < -10.0 { SquareStrictMonotone(10.0, -d.y); }
      }
      d.x * d.x + d.y * d.y > 100.0
  }

  /** The squared test agrees with the server's `Math.sqrt` test: for any
      non-negative `dist` whose square is the squared offset length,
      `dist > 10` exactly when the squared length exceeds 100. */
  lemma DeadZoneMatchesDistance(inp: Input, dist: real)
    requires Offset(inp).Some?
    requires dist >= 0.0
    requires dist * dist == (inp.mx.value - inp.vw.value / 2.0) * (inp.mx.value - inp.vw.value / 2.0)
                          + (inp.my.value - inp.vh.value / 2.0) * (inp.my.value - inp.vh.value / 2.0)
    ensures OutsideDeadZone(inp) <==> dist > 10.0
  {
    var d := Offset(inp).value;
    assert d.x == inp.mx.value - inp.vw.value / 2.0 && d.y == inp.my.value - inp.vh.value / 2.0;
    assert OutsideDeadZone(inp) <==> d.x * d.x + d.y * d.y > 100.0;
    if dist > 10.0 {
      MulMonotone(10.0, dist, dist);
    } else {
      MulMonotone(dist, 10.0, dist);
    }
  }

  /** `Math.max(1, 8 - r / 60)`: never below the minimum speed, never
      above the base speed for a non-negative radius, and exactly the
      damped base speed until that falls below the minimum. */
  function Speed(r: real): (s: real)
    ensures s >= 1.0
    ensures r >= 0.0 ==> s <= 8.0
    ensures r <= 420.0 ==> s == 8.0 - r / 60.0
    ensures r >= 420.0 ==> s == 1.0
  {
    if 1.0 > 8.0 - r / 60.0 then 1.0 else 8.0 - r / 60.0
  }

  /** Larger blobs are never faster. */
  lemma SpeedNonIncreasing(r1: real, r2: real)
    requires r1 <= r2
    ensures Speed(r2) <= Speed(r1)
  {
  }

  /** `Math.max(0, Math.min(MAP_SIZE, v))`: the result is in the map, and
      it is `v` itself when `v` already is. */
  function Clamp(v: real): (c: real)
    ensures 0.0 <= c <= MAP_SIZE
    ensures 0.0 <= v <= MAP_SIZE ==> c == v
    ensures v < 0.0 ==> c == 0.0
    ensures v > MAP_SIZE ==> c == MAP_SIZE
  {
    var m := if MAP_SIZE < v then MAP_SIZE else v;
    if 0.0 > m then 0.0 else m
  }

  /** Clamping an in-map coordinate after a step never moves it further
      than the step itself, and never across to the other side. */
  lemma ClampNonExpansive(v: real, step: real)
    requires 0.0 <= v <= MAP_SIZE
    ensures step >= 0.0 ==> v <= Clamp(v + step) <= v + step
    ensures step <= 0.0 ==> v + step <= Clamp(v + step) <= v
  {
  }

  /** One coordinate of a move: displaced by `u * s` when `moving`, then
      clamped into the map. */
  function MoveAxis(v: real, u: real, s: real, moving: bool): (c: real)
    ensures 0.0 <= c <= MAP_SIZE
    ensures !moving && 0.0 <= v <= MAP_SIZE ==> c == v
  {
    Clamp(if moving then v + u * s else v)
  }

  /** One blob's movement: displaced along `dir` scaled by its speed when
      `moving`, then clamped; the radius is untouched. */
  function MoveBlob(b: Blob, dir: Vec, moving: bool): (b': Blob)
    ensures InMap(b'.x, b'.y)
    ensures b'.r == b.r
    ensures !moving && InMap(b.x, b.y) ==> b' == b
  {
    var s := Speed(b.r);
    Blob(MoveAxis(b.x, dir.x, s, moving), MoveAxis(b.y, dir.y, s, moving), b.r)
  }

  /** A move that stays inside the map is not clamped: the coordinate is
      displaced by exactly `u * s`. */
  lemma MoveAxisInterior(v: real, u: real, s: real)
    requires 0.0 <= v + u * s <= MAP_SIZE
    ensures MoveAxis(v, u, s, true) == v + u * s
  {
  }

  /** A moving blob whose displaced centre is inside the map ends exactly
      there: displaced by `dir` scaled by the speed of its radius. */
  lemma MoveBlobInterior(b: Blob, dir: Vec)
    requires InMap(b.x + dir.x * Speed(b.r), b.y + dir.y * Speed(b.r))
    ensures MoveBlob(b, dir, true) == Blob(b.x + dir.x * Speed(b.r), b.y + dir.y * Speed(b.r), b.r)
  {
    var s := Speed(b.r);
    assert dir.x * s == s * dir.x && dir.y * s == s * dir.y;
    MoveAxisInterior(b.x, dir.x, s);
    MoveAxisInterior(b.y, dir.y, s);
  }

  /** A move that would cross a wall ends on that wall. */
  lemma MoveAxisAtWall(v: real, u: real, s: real)
    ensures v + u * s < 0.0 ==> MoveAxis(v, u, s, true) == 0.0
    ensures v + u * s > MAP_SIZE ==> MoveAxis(v, u, s, true) == MAP_SIZE
  {
  }

  /** A blob inside the map moves at most its speed along each axis when
      the direction has components in [-1, 1]. */
  lemma MoveBlobBounded(b: Blob, dir: Vec, moving: bool)
    requires InMap(b.x, b.y)
    requires -1.0 <= dir.x <= 1.0 && -1.0 <= dir.y <= 1.0
    ensures var m := MoveBlob(b, dir, moving);
      && -Speed(b.r) <= m.x - b.x <= Speed(b.r)
      && -Speed(b.r) <= m.y - b.y <= Speed(b.r)
  {
    MoveAxisBounded(b.x, dir.x, Speed(b.r), moving);
    MoveAxisBounded(b.y, dir.y, Speed(b.r), moving);
  }

  /** One axis of a move: a coordinate in the map, displaced by `u * s`
      with `u` in [-1, 1] and then clamped, stays within `s` of where it
      started. */
  lemma MoveAxisBounded(v: real, u: real, s: real, moving: bool)
    requires 0.0 <= v <= MAP_SIZE
    requires -1.0 <= u <= 1.0 && s >= 0.0
    ensures -s <= MoveAxis(v, u, s, moving) - v <= s
  {
    if moving {
      var step := u * s;
      assert -s <= step <= s by { ScaledBound(u, s); }
      assert MoveAxis(v, u, s, moving) == Clamp(v + step);
      ClampNonExpansive(v, step);
    }
  }

  /** A speed scaled by a direction component in [-1, 1]. */
  lemma ScaledBound(u: real, s: real)
    requires -1.0 <= u <= 1.0 && s >= 0.0
    ensures -s <= u * s <= s
  {
    MulMonotone(-1.0, u, s);
    MulMonotone(u, 1.0, s);
    assert 1.0 * s == s;
    assert (-1.0) * s == -s;
  }
}

=== FILE: server.dfy ===
/** The server as a state machine: the world evolves by one handler per
    event, in the order the single event loop delivers them. */
module Server {
  import opened Wrappers
  import opened WorldModel
  import opened Spawner
  import opened Movement
  import opened InputStep
  import opened Session

  /** One delivered event, together with what the handler gets from
      outside the world: the store's replies and the random draws. */
  datatype Event =
    | AuthEvent(sid: SocketId, req: AuthRequest, lookup: StoreReply<Option<Record>>,
                create: StoreReply<DbId>, ux: real, uy: real)
    | InputEvent(sid: SocketId, inp: Input, dir: Vec, draws: seq<Draw>)
    | DisconnectEvent(sid: SocketId)

  /** The random draws of an event are values of `Math.random()`, and an
      input event carries one draw per pellet of a replenishment batch. */
  predicate WellFormed(e: Event) {
    match e
    case AuthEvent(_, _, _, _, ux, uy) => Unit(ux) && Unit(uy)
    case InputEvent(_, _, _, draws) => |draws| == SPAWN_BATCH && ValidDraws(draws)
    case DisconnectEvent(_) => true
  }

  /** The handler an event is delivered to. */
  function Handle(w: World, e: Event): (r: World)
    requires WellFormed(e)
    // A handler touches only the entry of its own socket.
    ensures forall s :: s in w.players && s != e.sid ==> s in r.players && r.players[s] == w.players[s]
    ensures r.players.Keys - {e.sid} == w.players.Keys - {e.sid}
    // Only an input step changes the food; a disconnect always removes
    // the entry, and an input never adds or removes one.
    ensures !e.InputEvent? ==> r.food == w.food
    ensures e.DisconnectEvent? ==> e.sid !in r.players
    ensures e.InputEvent? ==> r.players.Keys == w.players.Keys
  {
    match e
    case AuthEvent(sid, req, lookup, create, ux, uy) => Authenticate(w, sid, req, lookup, create, ux, uy).world
    case InputEvent(sid, inp, dir, draws) => UpdateInput(w, sid, inp, dir, draws)
    case DisconnectEvent(sid) => Disconnect(w, sid).world
  }

  /** Every handler keeps the world invariant. */
  lemma HandleValid(w: World, e: Event)
    requires WellFormed(e) && Valid(w)
    ensures Valid(Handle(w, e))
  {
    match e
    case AuthEvent(sid, req, lookup, create, ux, uy) => AuthenticateValid(w, sid, req, lookup, create, ux, uy);
    case InputEvent(sid, inp, dir, draws) => UpdateInputValid(w, sid, inp, dir, draws);
    case DisconnectEvent(sid) => DisconnectValid(w, sid);
  }

  predicate AllWellFormed(es: seq<Event>) {
    forall i :: 0 <= i < |es| ==> WellFormed(es[i])
  }

  /** The world after a run of events, handled one at a time. */
  function Run(w: World, es: seq<Event>): (r: World)
    requires AllWellFormed(es)
    decreases |es|
  {
    if es == [] then w else Run(Handle(w, es[0]), es[1..])
  }

  /** From start-up, after any run of events, every blob and every pellet
      is inside the map, every blob has a positive radius, and every
      player is filed under its own socket. */
  lemma {:induction false} RunValid(w: World, es: seq<Event>)
    requires Valid(w) && AllWellFormed(es)
    ensures Valid(Run(w, es))
    decreases |es|
  {
    if es != [] {
      HandleValid(w, es[0]);
      RunValid(Handle(w, es[0]), es[1..]);
    }
  }

  /** Input events only ever come from known sockets in effect: a run of
      input events from a socket with no entry leaves the world as it is. */
  lemma {:induction false} UnknownSocketInputsAreNoops(w: World, sid: SocketId, es: seq<Event>)
    requires sid !in w.players
    requires AllWellFormed(es)
    requires forall i :: 0 <= i < |es| ==> es[i].InputEvent? && es[i].sid == sid
    ensures Run(w, es) == w
    decreases |es|
  {
    if es != [] {
      assert Handle(w, es[0]) == w;
      UnknownSocketInputsAreNoops(w, sid, es[1..]);
    }
  }

  /** Every live player has exactly one blob: the `auth` handler creates
      one and no handler adds or removes any. */
  predicate OneBlob(w: World) {
    forall s :: s in w.players ==> |w.players[s].blobs| == 1
  }

  /** Every handler keeps each live player at one blob. */
  lemma HandleKeepsOneBlob(w: World, e: Event)
    requires WellFormed(e) && OneBlob(w)
    ensures OneBlob(Handle(w, e))
  {
    var r := Handle(w, e);
    forall s | s in r.players
      ensures |r.players[s].blobs| == 1
    {
      if s != e.sid {
        assert r.players[s] == w.players[s];
      }
    }
  }

  /** From start-up, every world a run of events reaches has one blob per
      player, so `UpdateInputOneBlob` describes every input step there. */
  lemma {:induction false} RunKeepsOneBlob(w: World, es: seq<Event>)
    requires OneBlob(w) && AllWellFormed(es)
    ensures OneBlob(Run(w, es))
    decreases |es|
  {
    if es != [] {
      HandleKeepsOneBlob(w, es[0]);
      RunKeepsOneBlob(Handle(w, es[0]), es[1..]);
    }
  }
}

=== FILE: session.dfy ===
/** The session gateway: the `auth` handler, which loads or creates the
    persistent record and inserts a live player, and the `disconnect`
    handler, which computes the final level, emits the save and removes
    the player. The record store is not called: its replies are inputs
    and the save it would receive is an output. */
module Session {
  import opened Wrappers
  import opened Arith
  import opened WorldModel
  import opened Spawner
  import opened Movement
  import opened InputStep

  const STARTER_SKIN: string := "starter"
  const WRONG_PASSWORD: string := "Hibás jelszó!"
  const SERVER_ERROR: string := "Szerver hiba történt."
  /** Experience per level step: level L needs 200 * (L - 1)^2 xp. */
  const XP_PER_LEVEL_SQUARE: nat := 200

  /** The persistent player record (its high score is never read or
      written by the handlers and is not modelled). */
  datatype Record = Record(id: DbId, username: string, password: string, xp: nat, level: int, skinId: string)

  /** The `auth` payload; `skinId` is optional. */
  datatype AuthRequest = AuthRequest(username: string, password: string, skinId: Option<string>)

  /** What the server emits back to the authenticating socket. */
  datatype Reply = AuthSuccess(username: string, xp: nat, level: int, skinId: string) | AuthError(message: string)

  /** The world after the handler, the reply, and the record created in
      the store, if any. */
  datatype AuthOutcome = AuthOutcome(world: World, reply: Reply, created: Option<Record>)

  /** JavaScript `a || b` on an optional string: `b` when `a` is missing
      or empty. */
  function OrElse(a: Option<string>, b: string): (r: string)
    ensures a.Some? && a.value != "" ==> r == a.value
    ensures a.None? || a.value == "" ==> r == b
  {
    if a.Some? && a.value != "" then a.value else b
  }

  /** The record `Player.create` stores for a new username: the given
      credentials, xp 0, level 1 and the requested skin or else the
      starter skin. */
  function NewRecord(id: DbId, req: AuthRequest): (rec: Record)
    ensures rec.id == id && rec.username == req.username && rec.password == req.password
    ensures rec.xp == 0 && rec.level == Level(rec.xp)
    ensures rec.skinId != ""
    ensures req.skinId.Some? && req.skinId.value != "" ==> rec.skinId == req.skinId.value
    ensures req.skinId.None? || req.skinId.value == "" ==> rec.skinId == STARTER_SKIN
  {
    Record(id, req.username, req.password, 0, 1, OrElse(req.skinId, STARTER_SKIN))
  }

  /** The live player built from an accepted record: one blob of radius
      START_RADIUS at the drawn position, score 0. */
  function Hydrate(sid: SocketId, rec: Record, req: AuthRequest, ux: real, uy: real): (p: Player)
    requires Unit(ux) && Unit(uy)
    ensures p.id == sid && p.dbId == rec.id && p.username == rec.username
    ensures p.xp == rec.xp && p.level == rec.level
    ensures p.skinId == OrElse(req.skinId, rec.skinId)
    ensures p.score == 0 && |p.blobs| == 1 && p.blobs[0].r == START_RADIUS
    ensures PlayerOk(p)
  {
    Player(sid, rec.id, rec.username, rec.xp, rec.level, OrElse(req.skinId, rec.skinId),
           [Blob(Scale(ux), Scale(uy), START_RADIUS)], 0)
  }

  /** Inserts the hydrated player and answers with its progression. */
  function Admit(w: World, sid: SocketId, rec: Record, req: AuthRequest, ux: real, uy: real,
                 created: Option<Record>): (o: AuthOutcome)
    requires Unit(ux) && Unit(uy)
    ensures o.reply.AuthSuccess? && o.reply.username == rec.username && o.created == created
    ensures o.world.players.Keys == w.players.Keys + {sid} && o.world.food == w.food
    ensures forall s :: s in w.players && s != sid ==> o.world.players[s] == w.players[s]
    ensures var p := o.world.players[sid];
      p.dbId == rec.id && p.xp == o.reply.xp == rec.xp && p.level == o.reply.level == rec.level
      && p.skinId == o.reply.skinId && PlayerOk(p) && p.id == sid
      && p.score == 0 && |p.blobs| == 1 && p.blobs[0].r == START_RADIUS
  {
    var p := Hydrate(sid, rec, req, ux, uy);
    AuthOutcome(World(w.players[sid := p], w.food), AuthSuccess(rec.username, p.xp, p.level, p.skinId), created)
  }

  /** The `auth` handler. `lookup` is the reply of `findOne`, `create`
      the id the store assigns (or its failure) when a record must be
      created, and `(ux, uy)` the draws for the starting position. */
  function Authenticate(w: World, sid: SocketId, req: AuthRequest,
                        lookup: StoreReply<Option<Record>>, create: StoreReply<DbId>,
                        ux: real, uy: real): (o: AuthOutcome)
    requires Unit(ux) && Unit(uy)
    // Food is never touched, and no other player changes.
    ensures o.world.food == w.food
    ensures forall s :: s in w.players && s != sid ==> s in o.world.players && o.world.players[s] == w.players[s]
    // A rejection leaves the world exactly as it was; an acceptance adds
    // exactly this socket's entry.
    ensures o.reply.AuthError? ==> o.world == w
    ensures o.reply.AuthSuccess? ==> o.world.players.Keys == w.players.Keys + {sid}
    // A store failure, on lookup or on creation, is a server error.
    ensures lookup.StoreFailed? ==> o.reply == AuthError(SERVER_ERROR) && o.created.None?
    ensures lookup == Stored(None) && create.StoreFailed? ==> o.reply == AuthError(SERVER_ERROR) && o.created.None?
    // An existing record with a different password is rejected.
    ensures lookup.Stored? && lookup.value.Some? && lookup.value.value.password != req.password ==>
              o.reply == AuthError(WRONG_PASSWORD) && o.created.None?
    // An unknown username gets a fresh record with xp 0, level 1 and the
    // requested or starter skin, and is admitted with it.
    ensures lookup == Stored(None) && create.Stored? ==>
              && o.created == Some(Record(create.value, req.username, req.password, 0, 1, OrElse(req.skinId, STARTER_SKIN)))
              && o.reply == AuthSuccess(req.username, 0, 1, OrElse(req.skinId, STARTER_SKIN))
              && o.world.players[sid].dbId == create.value
    // An existing record with the right password is admitted unchanged.
    ensures lookup.Stored? && lookup.value.Some? && lookup.value.value.password == req.password ==>
              var rec := lookup.value.value;
              && o.created.None?
              && o.reply == AuthSuccess(rec.username, rec.xp, rec.level, OrElse(req.skinId, rec.skinId))
              && o.world.players[sid].dbId == rec.id
    // On success the live entry holds score 0, one starting blob in the
    // map, and the record's name and progression.
    ensures o.reply.AuthSuccess? ==>
              var p := o.world.players[sid];
              && p.id == sid && p.score == 0 && |p.blobs| == 1 && p.blobs[0].r == START_RADIUS
              && InMap(p.blobs[0].x, p.blobs[0].y)
              && p.username == o.reply.username
              && p.xp == o.reply.xp && p.level == o.reply.level && p.skinId == o.reply.skinId
  {
    match lookup
    case StoreFailed => AuthOutcome(w, AuthError(SERVER_ERROR), None)
    case Stored(None) =>
      (match create
       case StoreFailed => AuthOutcome(w, AuthError(SERVER_ERROR), None)
       case Stored(id) =>
         var rec := NewRecord(id, req);
         Admit(w, sid, rec, req, ux, uy, Some(rec)))
    case Stored(Some(rec)) =>
      if rec.password != req.password then AuthOutcome(w, AuthError(WRONG_PASSWORD), None)
      else Admit(w, sid, rec, req, ux, uy, None)
  }

  /** Authentication keeps the world invariant. */
  lemma AuthenticateValid(w: World, sid: SocketId, req: AuthRequest,
                          lookup: StoreReply<Option<Record>>, create: StoreReply<DbId>, ux: real, uy: real)
    requires Unit(ux) && Unit(uy)
    requires Valid(w)
    ensures Valid(Authenticate(w, sid, req, lookup, create, ux, uy).world)
  {
  }

  /** `FloorSqrt` by counting up from a root known to be small enough. */
  function SqrtFrom(n: nat, k: nat): (root: nat)
    requires k * k <= n
    ensures root * root <= n < (root + 1) * (root + 1)
    decreases n - k
  {
    if (k + 1) * (k + 1) > n then k
    else
      assert k + 1 <= (k + 1) * (k + 1);
      SqrtFrom(n, k + 1)
  }

  /** The integer square root: the largest root whose square is at most `n`. */
  function FloorSqrt(n: nat): (root: nat)
    ensures root * root <= n < (root + 1) * (root + 1)
  {
    SqrtFrom(n, 0)
  }

  /** `Math.floor(Math.sqrt(xp / 200)) + 1`: the largest level `L >= 1`
      with 200 * (L - 1)^2 <= xp. */
  function Level(xp: nat): (level: int)
    ensures level >= 1
    ensures XP_PER_LEVEL_SQUARE * (level - 1) * (level - 1) <= xp
    ensures xp < XP_PER_LEVEL_SQUARE * level * level
  {
    var q := xp / XP_PER_LEVEL_SQUARE;
    var k := FloorSqrt(q);
    assert XP_PER_LEVEL_SQUARE * (k * k) <= XP_PER_LEVEL_SQUARE * q <= xp;
    assert xp < XP_PER_LEVEL_SQUARE * (q + 1) <= XP_PER_LEVEL_SQUARE * ((k + 1) * (k + 1));
    k + 1
  }

  /** Any level meeting the defining bounds is the computed one. */
  lemma LevelUnique(xp: nat, level: int)
    requires level >= 1
    requires XP_PER_LEVEL_SQUARE * (level - 1) * (level - 1) <= xp < XP_PER_LEVEL_SQUARE * level * level
    ensures level == Level(xp)
  {
    var l := Level(xp);
    if level < l {
      assert level <= l - 1;
      SquareMonotoneInt(level, l - 1);
    } else if level > l {
      assert l <= level - 1;
      SquareMonotoneInt(l, level - 1);
    }
  }

  /** More experience never means a lower level. */
  lemma LevelMonotone(xp1: nat, xp2: nat)
    requires xp1 <= xp2
    ensures Level(xp1) <= Level(xp2)
  {
    var l1, l2 := Level(xp1), Level(xp2);
    if l1 > l2 {
      SquareMonotoneInt(l2, l1 - 1);
    }
  }

  /** The integer formula agrees with the server's real one: for any
      non-negative real `s` whose square is `xp / 200`, the level is
      `floor(s) + 1`. */
  lemma LevelMatchesSqrt(xp: nat, s: real)
    requires s >= 0.0 && s * s == xp as real / 200.0
    ensures Level(xp) == s.Floor + 1
  {
    var k: nat := Level(xp) - 1;
    SquaresToReal(xp, k);
    FloorFromSquares(k, s);
  }

  /** The level bounds, read over the reals. */
  lemma SquaresToReal(xp: nat, k: nat)
    requires 200 * k * k <= xp < 200 * (k + 1) * (k + 1)
    ensures (k as real) * (k as real) <= xp as real / 200.0
    ensures xp as real / 200.0 < (k as real + 1.0) * (k as real + 1.0)
  {
    var kr := k as real;
    assert (k * k) as real == kr * kr;
    assert ((k + 1) * (k + 1)) as real == (kr + 1.0) * (kr + 1.0);
  }

  /** A non-negative real whose square lies between `k^2` and `(k+1)^2`
      has floor `k`. */
  lemma FloorFromSquares(k: nat, s: real)
    requires s >= 0.0
    requires (k as real) * (k as real) <= s * s < (k as real + 1.0) * (k as real + 1.0)
    ensures s.Floor == k
  {
    var kr := k as real;
    assert kr <= s by {
      if s < kr { SquareStrictMonotone(s, kr); }
    }
    assert s < kr + 1.0 by {
      if kr + 1.0 <= s { SquareMonotone(kr + 1.0, s); }
    }
  }

  /** The fields `findByIdAndUpdate` writes on disconnect. */
  datatype Save = Save(dbId: DbId, xp: nat, level: int, skinId: string)

  datatype DisconnectOutcome = DisconnectOutcome(world: World, save: Option<Save>)

  /** The `disconnect` handler: for a live socket, emits the save of its
      xp, the level recomputed from it and its skin, and removes the
      entry whatever the store answers; for an unknown socket, nothing. */
  function Disconnect(w: World, sid: SocketId): (o: DisconnectOutcome)
    ensures o.world.players.Keys == w.players.Keys - {sid}
    ensures forall s :: s in o.world.players ==> o.world.players[s] == w.players[s]
    ensures o.world.food == w.food
    ensures sid !in w.players ==> o == DisconnectOutcome(w, None)
    ensures sid in w.players ==>
      var p := w.players[sid];
      && o.save.Some?
      && o.save.value.dbId == p.dbId && o.save.value.xp == p.xp && o.save.value.skinId == p.skinId
      && o.save.value.level >= 1
      && XP_PER_LEVEL_SQUARE * (o.save.value.level - 1) * (o.save.value.level - 1) <= p.xp
      && p.xp < XP_PER_LEVEL_SQUARE * o.save.value.level * o.save.value.level
  {
    if sid in w.players then
      var p := w.players[sid];
      DisconnectOutcome(World(w.players - {sid}, w.food), Some(Save(p.dbId, p.xp, Level(p.xp), p.skinId)))
    else DisconnectOutcome(w, None)
  }

  /** Disconnecting keeps the world invariant. */
  lemma DisconnectValid(w: World, sid: SocketId)
    requires Valid(w)
    ensures Valid(Disconnect(w, sid).world)
  {
  }

  /** The store's `findByIdAndUpdate`: the record with the saved id takes
      the saved fields; any other record is untouched. */
  function ApplySave(rec: Record, s: Save): (r: Record)
    ensures r.id == rec.id && r.username == rec.username && r.password == rec.password
    ensures rec.id == s.dbId ==> r.xp == s.xp && r.level == s.level && r.skinId == s.skinId
    ensures rec.id != s.dbId ==> r == rec
  {
    if rec.id == s.dbId then rec.(xp := s.xp, level := s.level, skinId := s.skinId) else rec
  }

  /** Progress survives a session: after a player disconnects and the save
      reaches its record, authenticating again with the same credentials
      returns the xp the player had, the level computed from it and its
      skin. */
  lemma ReauthRestoresProgress(w: World, sid: SocketId, rec: Record, req: AuthRequest,
                               w2: World, sid2: SocketId, create: StoreReply<DbId>, ux: real, uy: real)
    requires sid in w.players && w.players[sid].dbId == rec.id
    requires rec.password == req.password
    requires Unit(ux) && Unit(uy)
    ensures var d := Disconnect(w, sid);
            var p := w.players[sid];
            var o := Authenticate(w2, sid2, req, Stored(Some(ApplySave(rec, d.save.value))), create, ux, uy);
            o.reply == AuthSuccess(rec.username, p.xp, Level(p.xp), OrElse(req.skinId, p.skinId))
  {
  }

  /** A whole first session of a new player: the login creates a record
      and files the live entry under its id, an input step plays, and the
      disconnect save reaches that same record, so the next login with the
      same password returns the xp the player ended with, the level
      computed from it and its skin. */
  lemma NewPlayerProgressSurvives(w: World, sid: SocketId, req: AuthRequest, id: DbId, ux: real, uy: real,
                                  inp: Input, dir: Vec, draws: seq<Draw>,
                                  w2: World, sid2: SocketId, req2: AuthRequest, create2: StoreReply<DbId>,
                                  ux2: real, uy2: real)
    requires Unit(ux) && Unit(uy) && Unit(ux2) && Unit(uy2)
    requires |draws| == SPAWN_BATCH && ValidDraws(draws)
    requires req2.password == req.password
    ensures var o := Authenticate(w, sid, req, Stored(None), Stored(id), ux, uy);
            var w1 := UpdateInput(o.world, sid, inp, dir, draws);
            && o.created.Some? && sid in w1.players
            && var p := w1.players[sid];
               var d := Disconnect(w1, sid);
               && d.save == Some(Save(id, p.xp, Level(p.xp), p.skinId))
               && var o2 := Authenticate(w2, sid2, req2, Stored(Some(ApplySave(o.created.value, d.save.value))), create2, ux2, uy2);
                  o2.reply == AuthSuccess(req.username, p.xp, Level(p.xp), OrElse(req2.skinId, p.skinId))
  {
    var o := Authenticate(w, sid, req, Stored(None), Stored(id), ux, uy);
    var w1 := UpdateInput(o.world, sid, inp, dir, draws);
    var p := w1.players[sid];
    assert p.dbId == id;
    assert Disconnect(w1, sid).save.value.level == Level(p.xp) by {
      LevelUnique(p.xp, Disconnect(w1, sid).save.value.level);
    }
  }

  /** A new player's first session: authenticating an unknown username
      with no skin yields xp 0, level 1 and the starter skin, and
      disconnecting right away saves level 1 (which `Level(0)` agrees
      with). */
  lemma NewPlayerFirstSession(w: World, sid: SocketId, name: string, password: string, id: DbId, ux: real, uy: real)
    requires Unit(ux) && Unit(uy)
    ensures var o := Authenticate(w, sid, AuthRequest(name, password, None), Stored(None), Stored(id), ux, uy);
            && o.reply == AuthSuccess(name, 0, 1, STARTER_SKIN)
            && Disconnect(o.world, sid).save == Some(Save(id, 0, 1, STARTER_SKIN))
  {
    assert Level(0) == 1;
  }

  /** A socket whose password was rejected has no entry, so its input
      changes nothing. */
  lemma RejectedSocketInputIsNoop(w: World, sid: SocketId, req: AuthRequest, rec: Record,
                                  create: StoreReply<DbId>, ux: real, uy: real,
                                  inp: Input, dir: Vec, draws: seq<Draw>)
    requires sid !in w.players
    requires rec.password != req.password
    requires Unit(ux) && Unit(uy)
    requires |draws| == SPAWN_BATCH && ValidDraws(draws)
    ensures var o := Authenticate(w, sid, req, Stored(Some(rec)), create, ux, uy);
            && o.reply == AuthError(WRONG_PASSWORD)
            && UpdateInput(o.world, sid, inp, dir, draws) == w
  {
  }
}

=== FILE: spawner.dfy ===
/** The food spawner: appends pellets at random positions with a random
    colour. Every `Math.random()` value the server draws is supplied as a
    `Draw`, so the model is deterministic in its inputs. */
module Spawner {
  import opened WorldModel

  const PALETTE: seq<string> :=
    ["#ff4d4d", "#4dff4d", "#4d4dff", "#ffff4d", "#ff4dff", "#4dffff"]

  /** A value of `Math.random()`: a real in [0, 1). */
  predicate Unit(u: real) {
    0.0 <= u < 1.0
  }

  /** The four random values drawn for one pellet: its id, its two
      coordinates (scaled by the map size) and its colour index. */
  datatype Draw = Draw(id: real, ux: real, uy: real, uc: real)

  predicate ValidDraw(d: Draw) {
    Unit(d.id) && Unit(d.ux) && Unit(d.uy) && Unit(d.uc)
  }

  predicate ValidDraws(ds: seq<Draw>) {
    forall i :: 0 <= i < |ds| ==> ValidDraw(ds[i])
  }

  /** `Math.floor(u * colors.length)`: always a valid palette index. */
  function ColorIndex(u: real): (k: nat)
    requires Unit(u)
    ensures k < |PALETTE|
    ensures k as real <= u * 6.0 < k as real + 1.0
  {
    (u * 6.0).Floor
  }

  /** Scaling a unit draw by the map size lands inside the map. */
  function Scale(u: real): (v: real)
    requires Unit(u)
    ensures 0.0 <= v < MAP_SIZE
  {
    u * MAP_SIZE
  }

  /** The pellet built from one draw. */
  function Pellet(d: Draw): (f: Food)
    requires ValidDraw(d)
    ensures InMap(f.x, f.y) && f.c in PALETTE && f.id == d.id
  {
    Food(d.id, Scale(d.ux), Scale(d.uy), PALETTE[ColorIndex(d.uc)])
  }

  /** `spawnFood(count)`: pushes `count` pellets, one per draw, onto the
      end of the food sequence. */
  function SpawnFood(food: seq<Food>, count: nat, draws: seq<Draw>): (r: seq<Food>)
    requires |draws| == count && ValidDraws(draws)
    ensures |r| == |food| + count
    ensures r[..|food|] == food
    ensures forall i :: |food| <= i < |r| ==> r[i] == Pellet(draws[i - |food|])
    ensures forall i :: |food| <= i < |r| ==> InMap(r[i].x, r[i].y)
    decreases count
  {
    if count == 0 then food
    else SpawnFood(food + [Pellet(draws[0])], count - 1, draws[1..])
  }

  /** Spawning keeps the whole food sequence inside the map. */
  lemma SpawnFoodInMap(food: seq<Food>, count: nat, draws: seq<Draw>)
    requires |draws| == count && ValidDraws(draws)
    ensures FoodInMap(food) <==> FoodInMap(SpawnFood(food, count, draws))
  {
    var r := SpawnFood(food, count, draws);
    forall i | 0 <= i < |food|
      ensures r[i] == food[i]
    {
      assert r[i] == r[..|food|][i];
    }
  }

  /** The seed population spawned at start-up. */
  function InitialFood(draws: seq<Draw>): (r: seq<Food>)
    requires |draws| == INITIAL_FOOD && ValidDraws(draws)
    ensures |r| == INITIAL_FOOD
    ensures FoodInMap(r)
  {
    SpawnFood([], INITIAL_FOOD, draws)
  }

  /** The world at start-up: no players and the seed population. */
  function InitialWorld(draws: seq<Draw>): (w: World)
    requires |draws| == INITIAL_FOOD && ValidDraws(draws)
    ensures Valid(w)
    ensures w.players == map[] && |w.food| == INITIAL_FOOD
  {
    World(map[], InitialFood(draws))
  }

  /** The replenishment at the end of an input step: SPAWN_BATCH new
      pellets when fewer than FOOD_TARGET remain, otherwise nothing. */
  function Replenish(food: seq<Food>, draws: seq<Draw>): (r: seq<Food>)
    requires |draws| == SPAWN_BATCH && ValidDraws(draws)
    ensures |food| < FOOD_TARGET ==> |r| == |food| + SPAWN_BATCH
    ensures |food| >= FOOD_TARGET ==> r == food
    ensures r[..|food|] == food
    ensures FoodInMap(food) ==> FoodInMap(r)
  {
    if |food| < FOOD_TARGET then
      SpawnFoodInMap(food, SPAWN_BATCH, draws);
      SpawnFood(food, SPAWN_BATCH, draws)
    else food
  }
}

=== FILE: world.dfy ===
/** The in-memory world of the game server: the live players keyed by
    socket id and the sequence of food pellets, with the game constants. */
module WorldModel {

  /** Side length of the square map; every coordinate lives in [0, MAP_SIZE]. */
  const MAP_SIZE: real := 4000.0
  /** Radius of the single blob a player starts each session with. */
  const START_RADIUS: real := 25.0
  /** Radius a blob gains per pellet eaten. */
  const GROWTH: real := 0.25
  /** Experience and score credited per pellet eaten. */
  const XP_PER_PELLET: nat := 2
  const SCORE_PER_PELLET: nat := 1
  /** Replenishment: below FOOD_TARGET pellets, SPAWN_BATCH new ones appear. */
  const FOOD_TARGET: nat := 500
  const SPAWN_BATCH: nat := 5
  /** Number of pellets spawned when the server starts. */
  const INITIAL_FOOD: nat := 500

  type SocketId = string
  type DbId = nat

  datatype Blob = Blob(x: real, y: real, r: real)

  /** A pellet: a random id, a position and a colour from the palette. */
  datatype Food = Food(id: real, x: real, y: real, c: string)

  /** A live player: `dbId` refers back to the persistent record. */
  datatype Player = Player(
    id: SocketId,
    dbId: DbId,
    username: string,
    xp: nat,
    level: int,
    skinId: string,
    blobs: seq<Blob>,
    score: nat)

  datatype World = World(players: map<SocketId, Player>, food: seq<Food>)

  predicate InMap(x: real, y: real) {
    0.0 <= x <= MAP_SIZE && 0.0 <= y <= MAP_SIZE
  }

  predicate BlobOk(b: Blob) {
    InMap(b.x, b.y) && b.r > 0.0
  }

  predicate FoodInMap(fs: seq<Food>) {
    forall i :: 0 <= i < |fs| ==> InMap(fs[i].x, fs[i].y)
  }

  predicate PlayerOk(p: Player) {
    |p.blobs| > 0 && forall i :: 0 <= i < |p.blobs| ==> BlobOk(p.blobs[i])
  }

  /** The world invariant: every player is filed under its own socket id,
      owns at least one blob, every blob has a positive radius, and every
      entity lies inside the map. */
  predicate Valid(w: World) {
    && (forall s :: s in w.players ==> w.players[s].id == s && PlayerOk(w.players[s]))
    && FoodInMap(w.food)
  }
}

=== FILE: wrappers.dfy ===
/** Optional values, used for absent records, missing input fields and
    the save emitted on disconnect. */
module Wrappers {

  datatype Option<+T> = None | Some(value: T)

  /** The reply of the durable record store: either a value or a failure
      (connection lost, duplicate key, ...). */
  datatype StoreReply<+T> = Stored(value: T) | StoreFailed
}
